=== FILE: README.md ===
# bubbletea-wizard, modelled in Dafny

bubbletea-wizard is a terminal questionnaire. It reads a list of questions from a text
file and shows them one at a time. Each question is answered in a short (one-line) or long
(multi-line) input field. Once the last question is answered, it shows a table of the
answers and saves them to `output.txt`, one `<question>: <answer>` line per question.

This project models the core of that program:

- `go_strings.dfy` (`GoStrings`): the two Go library functions the parser relies on.
  `strings.TrimSpace` uses the whitespace set of `unicode.IsSpace`. `filepath.Base` is
  modelled with `/` as the only separator.
- `questions.dfy` (`Questions`): the question record and the parser that turns the lines
  of the questions file into the question list.
  - A trimmed blank line or a `//` comment adds nothing.
  - A `*` line adds one long-answer question whose prompt is the rest of the line. That
    rest is not trimmed again, so `* Tell` gives the prompt `" Tell"`.
  - A `>` line adds one short question per listed file, prompting `<rest> <base name>?`.
  - Any other line adds one short question holding the whole trimmed line.
  - The parser is given both as the loop the program runs (`Parse`) and as a concatenation
    over lines (`ParseQuestions`).
  - The program as written crashes on a line that trims to a single `/` (see Findings).
    `ParseAsWritten` models that crash. The rest of the model uses the corrected parser.
- `table.dfy` (`SummaryTable`): the table of answers. It models Go's truncating integer
  division, the two column widths, the rows and the table's height.
- `summary.dfy` (`Summary`): the text the view saves once every question is answered.
  When no prompt or answer contains a newline, `Lines` is its inverse: it splits the text
  back into one line per question.
- `wizard.dfy` (`Wizard`): the state machine.
  - The state record holds the current index, the terminal size, the done flag, the
    questions, the text of each question's input field and the table.
  - `Next` and `Update` react to resize, typing, Enter, Esc, Ctrl+C and any other message.
  - `Coherent` is what every state reached from a new questionnaire satisfies: answered
    questions hold their field's text, and a finished questionnaire's table lists exactly
    the answers.
  - `Run` folds a sequence of events.
  - `SavedOutput` gives what the view writes to the output file.

Widgets are opaque. A message passed on to a widget is recorded only as the target
(`Forward(TableWidget)` or `Forward(InputWidget(i))`). A key the current input field takes
is a `Type` event carrying the text the field holds afterwards. Enter stores the current
field's text as the answer.

Four behaviours of the code a reader might not expect:

- Key events are not suspended while the terminal is smaller than 80x20. Only the view
  changes, so Enter and Esc still act (`Wizard.EnterStep` has no size precondition).
- Esc is honoured after the last answer. A finished questionnaire therefore need not sit on
  its last question (`Wizard.EscAfterDone`). `done` itself never reverts.
- The text after `*` keeps its leading space.
- After the last answer, Esc still moves back and Enter still stores the current field's
  text, but keys now go to the table and no field changes any more. Enter therefore stores
  the text the answer already holds, so the answers, the table and the saved text stay as
  they were (`Wizard.RetypeAfterDone`, `Wizard.ReachableAnswersFrozen`).

## Model

| member | source | states |
|---|---|---|
| GoStrings.TrimSpace | main.go:350 | A trimmed line is never longer than the line. The full characterisation is in `TrimSpaceSpec`. |
| GoStrings.TrimSpaceSpec | main.go:350 | Trimming removes only whitespace, from both ends. It keeps a contiguous part of the line that neither starts nor ends with whitespace. |
| GoStrings.TrimSpaceIdempotent | main.go:350 | Trimming a trimmed line changes nothing. |
| GoStrings.Base | main.go:361 | A base name is never empty. The empty path gives `.`. The result is either `/` or a name with no separator. |
| GoStrings.BaseOfJoin | main.go:361 | The base name of `dir/name` is `name` when the name holds no separator. |
| GoStrings.BaseIdempotent | main.go:361 | Taking the base name of a base name changes nothing. |
| Questions.IsComment | main.go:355 | A trimmed line is a comment when it starts with `//`. It checks that there are two characters before reading the second one; the program does not (see Findings). |
| Questions.ScanPrompt | main.go:361 | The prompt for one file of a `>` line: the line's text, a space, the file's base name and `?`. `ScanQuestions` and `ScanLineExample` state its use. |
| Questions.ScanQuestions | main.go:359-363 | A `>` line gives exactly one short question per file, in file order. Question i prompts with the line's text, a space, the base name of file i and `?`. |
| Questions.ParseTrimmed | main.go:351-366 | The corrected classifier of one trimmed line: blank, `//`, `*`, `>` or plain, in that order of tests. `ParseLineCases` states what each kind adds. |
| Questions.ParseLine | main.go:350-366 | One raw line's questions: those of the line once trimmed. `ParseLineCases` and `ParseLineCount` state its contract. |
| Questions.ParseLineCases | main.go:350-366 | Per kind of trimmed line: blank and `//` lines add nothing; a `*` line adds one long question holding the rest of the line; a `>` line adds one question per file; any other line adds one short question holding the trimmed line. |
| Questions.ParseLineCount | main.go:350-366 | A line adds 1 question if it is a single-question line, `|files|` if it is a `>` line, and 0 otherwise. |
| Questions.ParseQuestions | main.go:348-367 | The corrected parser: every line's questions, concatenated in line order. It carries no contract of its own; `Parse`, `ParseAppend`, `ParseCount`, `ParseAnswersEmpty` and `ParseLongOnlyFromStar` state its properties. |
| Questions.Parse | main.go:348-367 | The parse loop appends each line's questions in line order. Its result equals the concatenation of every line's questions. |
| Questions.ParseAppend | main.go:348-367 | Parsing two blocks of lines gives the questions of the first block followed by those of the second, so output order follows line order. |
| Questions.ParseCount | main.go:348-367 | Number of questions = number of single-question lines + number of `>` lines × number of files. |
| Questions.ParseAnswersEmpty | main.go:49-65 | Every parsed question starts with an empty answer. |
| Questions.ParseLongOnlyFromStar | main.go:357-358 | A long-answer question comes only from a line that trims to `*` followed by its prompt. |
| Questions.LongLineExample | main.go:357-358 | `* Tell me about yourself` gives one long question with prompt `" Tell me about yourself"`, leading space kept. |
| Questions.ScanLineExample | main.go:359-363 | `> Describe` with files `docs/a.txt` and `b.txt` gives `" Describe a.txt?"` and `" Describe b.txt?"`, in that order. |
| Questions.ParseLineAsWritten | main.go:355 | The line check as written fails exactly when the trimmed line is `/`. The failure is an index-out-of-range reading index 1 of a 1-character line. On every other line it agrees with the corrected parser. |
| Questions.ParseAsWritten | main.go:348-367 | The parser as written. The first failing line stops the parse, and the only failure is reading index 1 of a one-character line. |
| Questions.ParseAsWrittenAgrees | main.go:348-367 | The parser as written succeeds exactly when no line trims to `/`. When it succeeds, it returns the corrected parser's list. |
| Questions.SlashLinePanics | main.go:355 | On the single line `/` the parser as written fails reading index 1 of a 1-character line. The corrected parser gives the short question `/`. |
| SummaryTable.GoDiv | main.go:176-177 | Integer division truncates toward zero: the remainder takes the dividend's sign and is smaller than the divisor in magnitude. |
| SummaryTable.QuestionColumnWidth | main.go:175-176 | The question column is a third of (width − 6), rounded toward zero. It is never negative once the width is at least 6, and never positive below that. |
| SummaryTable.AnswerColumnWidth | main.go:175-177 | Once the width is at least 6, three times the answer column is within 4 below 2 × (width − 6) − 18. The two columns together leave at least 12 columns free. |
| SummaryTable.ColumnWidthsFit | main.go:175-177 | When the width is at least 6, the question column is a third of (width − 6), rounded down. The answer column is twice that minus 6. Together they leave at least 12 columns free. |
| SummaryTable.ColumnWidthsAtLeastMinimum | main.go:175-177 | At 80 columns or more, the question column is at least 24 wide and the answer column at least 42. |
| SummaryTable.NarrowColumns | main.go:175-177 | Below 15 columns the answer width is negative. A width of 1 gives a question width of −1 by truncation, not −2. |
| SummaryTable.Rows | main.go:183-186 | The table has one row per question, in question order, showing its prompt and its answer. |
| SummaryTable.InitTable | main.go:174-193 | The built table is focused. It has a "Question" and an "Answer" column of the computed widths, a height 6 less than the terminal's, and one row per question. |
| Summary.Entry | main.go:138 | One question's saved line: prompt, `: `, answer and a newline. `EntryIsLine` states that it is one line when neither part holds a newline. |
| Summary.EntryIsLine | main.go:138 | When neither prompt nor answer contains a newline, an entry is one newline-free line `<question>: <answer>` followed by a newline. |
| Summary.SummaryText | main.go:137-140 | The saved text is empty exactly when there are no questions. `SummaryLines` gives its line-by-line reading. |
| Summary.BuildSummary | main.go:137-140 | The view's loop produces the entries `<question>: <answer>\n` of all questions, in order. |
| Summary.SummaryAppend | main.go:137-140 | The summary of two runs of questions is the first run's summary followed by the second's. |
| Summary.SummaryLines | main.go:137-140 | When no prompt or answer holds a newline, the saved text splits back into one line per question, in order, each reading `<question>: <answer>`. |
| Wizard.New | main.go:52-74 | A new questionnaire starts at the first question, not done, with no table and with every input field empty. It is valid exactly when there is a question. |
| Wizard.Next | main.go:250-257 | Before the last question it advances the index and changes nothing else. At the last question it keeps the index, sets done and builds the table. The index always stays in range. |
| Wizard.ForwardTarget | main.go:114-118 | Unhandled messages go to the table once done, and otherwise to the current question's input. |
| Wizard.Update | main.go:80-121 | Every event keeps the index in range and the questions' prompts and kinds. `done` never reverts and is set only by Enter on the last question. Only Enter changes an answer, and only the current one. Only a typed key changes a field's text, only the current field's and only before the questionnaire is done. Only Ctrl+C quits. |
| Wizard.TypeStep | main.go:113-118 | Before the questionnaire is done, a typed key goes to the current input field and changes only that field's text. Once done, it goes to the table and changes nothing. |
| Wizard.EnterStep | main.go:101-104 | Enter stores the current field's text as the current answer and leaves every other question alone. It returns the answered question's `Blur` command and applies Next, whatever the terminal size. |
| Wizard.EscStep | main.go:106-110 | Esc decrements the index only when it is at least 1. It never changes answers, `done`, the size or the table. |
| Wizard.ResizeStep | main.go:85-94 | A resize records the new size. Below 80x20 that is all it does. Otherwise a finished questionnaire rebuilds its table for the new size, and the message is passed on. |
| Wizard.PassiveSteps | main.go:96-99 | Ctrl+C quits, and any other key or message is passed on. Neither changes the state. |
| Wizard.Run | main.go:80-121 | Over any sequence of events the index stays in range, the questions keep their prompts and kinds, and `done` never reverts. |
| Wizard.RunAppend | main.go:80-121 | Running two event sequences in turn is running their concatenation. |
| Wizard.SavedOutput | main.go:123-140 | The answers are saved only when the questionnaire is done and the terminal is at least 80x20. |
| Wizard.TypeThenEnter | main.go:101-118 | In an unfinished questionnaire, typing a value and pressing Enter answers the current question with that value. It then moves to the next question, or finishes at the last one with the table built from the answers. |
| Wizard.AnswerRest | main.go:101-118 | From any question of an unfinished questionnaire, typing a value and pressing Enter once per remaining question finishes it on the last question. The remaining questions hold the typed values, earlier questions are untouched, and the table is built from the answered list. |
| Wizard.AnswerAll | main.go:80-140 | A new questionnaire resized to at least 80x20 and answered once per question (a typed value, then Enter) is done on its last question. Each question holds its value, the saved text is the summary of the answered questions, and the table lists every question with its answer. When no prompt or value contains a newline, the saved text splits into one `<question>: <answer>` line per question, in order. |
| Wizard.ShrinkThenGrow | main.go:85-94 | Once done, shrinking below 80x20 and growing again leaves the answers alone and rebuilds the table for the final size. |
| Wizard.EscAfterDone | main.go:106-110 | A two-question session resized to 80x20, answered twice and then sent Esc stays done with both answers. Its index is back on the first question, and its answers are still saved. |
| Wizard.NewCoherent | main.go:52-74 | A new questionnaire with at least one question satisfies `Coherent`. |
| Wizard.UpdateKeepsCoherent | main.go:80-121 | Every event keeps `Coherent`. Once the questionnaire is done, no event changes any answer. |
| Wizard.RunKeepsCoherent | main.go:80-121 | Every sequence of events keeps `Coherent`, and the answers of a finished questionnaire stay as they are. |
| Wizard.ReachableAnswersFrozen | main.go:80-140 | In every state reached from a new questionnaire, the answers are frozen once it is done. When done, the table lists every question with its answer, and the saved text is the summary of those same answers. |
| Wizard.RetypeAfterDone | main.go:101-118 | A two-question session answered in an 80x20 terminal, then sent Esc, a typed value and Enter, keeps both original answers. The table and the saved text show those answers. |
| Wizard.NoQuestionsNoCurrent | main.go:82 | A questions file whose lines add no question yields an empty list: only blank and comment lines, or `>` lines with no listed files. A questionnaire over that list has no current question to index. |

## Left out

- Widget internals (the short and long input fields in `input.go`, the table widget's key
  handling and rendering) are opaque. A message passed to a widget is recorded only as
  its target. A key the input field takes arrives as a `Type` event that carries the text
  the field holds afterwards. Every other message leaves the field's text as it is.
- Layout and styling (lipgloss placement, borders and colours) and the text the view
  draws are not modelled. Only the saved answers text is modelled.
- File and process I/O are not modelled: reading the questions file, listing the
  directory, creating the starter questions file, writing `output.txt`, command-line
  flags, terminal detection and opening a new terminal. The parser receives the file's
  lines and the file list as parameters.
- The Windows path separator and volume names in `filepath.Base` are not modelled. Only
  `/` separates path elements.
- Go strings are byte strings, while the model's strings are sequences of characters. The
  parser only tests ASCII characters at fixed positions, so the two agree on those
  positions.
- Wizard.Update: requires a current question. The program indexes the question list before it looks at the message (main.go:82). With an empty list (see `Wizard.NoQuestionsNoCurrent`) the first message stops it with an index-out-of-range panic. The model does not represent that panic.
- The `Blur` command returned on Enter blurs nothing. The input fields' `Blur` (input.go:33-35, input.go:68-70) returns the widget's own `Blur` method as a message without calling it, so every field stays focused. The model records only which question's command was returned.
- Wizard.Run: applies every event in the sequence, including those after a Ctrl+C. The
  runtime stops when `Update` returns `tea.Quit` (main.go:99), so those later events never
  reach the program. `Update` returns `Quit` exactly on Ctrl+C, but `Run` does not stop there.
- Wizard.Update: the command a widget returns is not modelled. A forwarded message yields
  `Forward(target)`, whatever the widget would return.

## Findings

| source | as written | input that shows it | evidently intended | confidence | as-written member | corrected member |
|---|---|---|---|---|---|---|
| main.go:355 | The comment test reads the second byte of every non-empty trimmed line that starts with `/`, even when the line has only one byte. | A questions file with a line that trims to `/`: the program stops with an index-out-of-range panic. | A one-character `/` line is not a comment. It becomes a short question like any other line. | high (not executed) | Questions.ParseLineAsWritten | Questions.ParseLineCases |

=== FILE: go_strings.dfy ===
/**
 The two Go standard-library string functions the questionnaire relies on:
 `strings.TrimSpace` (with the whitespace set of `unicode.IsSpace`) and
 `filepath.Base` for '/'-separated paths. Both are written as scans over indexes of the
 string, the way the Go library walks it.
 */
module GoStrings {

  /** The characters `unicode.IsSpace` accepts: the Latin-1 spaces and the other code points
      with the Unicode White_Space property. */
  const WhiteSpace: set<char> := {
    '\t', '\n', '\U{B}', '\U{C}', '\r', ' ', '\U{85}', '\U{A0}', '\U{1680}', '\U{2000}',
    '\U{2001}', '\U{2002}', '\U{2003}', '\U{2004}', '\U{2005}', '\U{2006}', '\U{2007}',
    '\U{2008}', '\U{2009}', '\U{200A}', '\U{2028}', '\U{2029}', '\U{202F}', '\U{205F}',
    '\U{3000}'
  }

  predicate IsSpace(c: char) {
    c in WhiteSpace
  }

  /** The first index at or after `i` that holds no whitespace, or `|s|`. */
  function FirstNonSpace(s: string, i: nat): (j: nat)
    requires i <= |s|
    ensures i <= j <= |s|
    decreases |s| - i
  {
    if i < |s| && IsSpace(s[i]) then FirstNonSpace(s, i + 1) else i
  }

  /** Scanning down from `j` but not below `lo`, the end of the part of `s[lo..j]` that is left
      once its trailing whitespace is dropped. */
  function TrimmedEnd(s: string, lo: nat, j: nat): (e: nat)
    requires lo <= j <= |s|
    ensures lo <= e <= j
  {
    if j > lo && IsSpace(s[j - 1]) then TrimmedEnd(s, lo, j - 1) else j
  }

  /** `strings.TrimSpace`: `s` without its leading whitespace and then without its trailing
      whitespace. */
  function TrimSpace(s: string): (r: string)
    ensures |r| <= |s|
  {
    var a := FirstNonSpace(s, 0);
    s[a..TrimmedEnd(s, a, |s|)]
  }

  lemma {:induction false} FirstNonSpaceSpec(s: string, i: nat)
    requires i <= |s|
    ensures forall k :: i <= k < FirstNonSpace(s, i) ==> IsSpace(s[k])
    ensures FirstNonSpace(s, i) < |s| ==> !IsSpace(s[FirstNonSpace(s, i)])
    decreases |s| - i
  {
    if i < |s| && IsSpace(s[i]) {
      FirstNonSpaceSpec(s, i + 1);
    }
  }

  lemma {:induction false} TrimmedEndSpec(s: string, lo: nat, j: nat)
    requires lo <= j <= |s|
    ensures forall k :: TrimmedEnd(s, lo, j) <= k < j ==> IsSpace(s[k])
    ensures TrimmedEnd(s, lo, j) > lo ==> !IsSpace(s[TrimmedEnd(s, lo, j) - 1])
  {
    if j > lo && IsSpace(s[j - 1]) {
      TrimmedEndSpec(s, lo, j - 1);
    }
  }

  /** What `TrimSpace` cuts off on either side is whitespace, what it keeps is the contiguous
      rest of `s`, and the result neither starts nor ends with whitespace. */
  lemma TrimSpaceSpec(s: string)
    ensures var r := TrimSpace(s); var a := FirstNonSpace(s, 0);
      && a + |r| <= |s|
      && r == s[a..a + |r|]
      && (forall i :: 0 <= i < a ==> IsSpace(s[i]))
      && (forall i :: a + |r| <= i < |s| ==> IsSpace(s[i]))
      && (r == [] || (!IsSpace(r[0]) && !IsSpace(r[|r| - 1])))
  {
    var a := FirstNonSpace(s, 0);
    FirstNonSpaceSpec(s, 0);
    TrimmedEndSpec(s, a, |s|);
  }

  /** A string whose ends are not whitespace is its own trimmed form. */
  lemma TrimSpaceOfTrimmed(s: string)
    requires s == [] || (!IsSpace(s[0]) && !IsSpace(s[|s| - 1]))
    ensures TrimSpace(s) == s
  {
    if s != [] {
      assert FirstNonSpace(s, 0) == 0;
      assert TrimmedEnd(s, 0, |s|) == |s|;
      assert s[0..|s|] == s;
    }
  }

  /** Trimming a string that is already trimmed changes nothing. */
  lemma TrimSpaceIdempotent(s: string)
    ensures TrimSpace(TrimSpace(s)) == TrimSpace(s)
  {
    TrimSpaceSpec(s);
    TrimSpaceOfTrimmed(TrimSpace(s));
  }

  /** Scanning down from `j`, the end of `s[..j]` once its trailing '/'s are dropped. */
  function SlashFreeEnd(s: string, j: nat): (e: nat)
    requires j <= |s|
    ensures e <= j
    ensures forall k :: e <= k < j ==> s[k] == '/'
    ensures e == 0 || s[e - 1] != '/'
  {
    if j > 0 && s[j - 1] == '/' then SlashFreeEnd(s, j - 1) else j
  }

  /** Scanning down from `j`, the index just after the last '/' in `s[..j]`, or 0. */
  function ElementStart(s: string, j: nat): (b: nat)
    requires j <= |s|
    ensures b <= j
    ensures forall k :: b <= k < j ==> s[k] != '/'
    ensures b == 0 || s[b - 1] == '/'
  {
    if j > 0 && s[j - 1] != '/' then ElementStart(s, j - 1) else j
  }

  /** `filepath.Base` with '/' as the only separator: "." for the empty path, "/" for a path
      of slashes only, otherwise the last non-empty element, which holds no '/'. */
  function Base(path: string): (r: string)
    ensures r != []
    ensures path == [] ==> r == "."
    ensures r == "/" || forall i :: 0 <= i < |r| ==> r[i] != '/'
  {
    if path == [] then "."
    else
      var e := SlashFreeEnd(path, |path|);
      if e == 0 then "/" else path[ElementStart(path, e)..e]
  }

  /** A non-empty path without separators is its own base. */
  lemma BaseOfName(name: string)
    requires name != [] && forall i :: 0 <= i < |name| ==> name[i] != '/'
    ensures Base(name) == name
  {
    assert SlashFreeEnd(name, |name|) == |name|;
    assert ElementStart(name, |name|) == 0;
    assert name[0..|name|] == name;
  }

  /** The base of a joined path `dir + "/" + name` is `name`, for a name without separators. */
  lemma BaseOfJoin(dir: string, name: string)
    requires name != [] && forall i :: 0 <= i < |name| ==> name[i] != '/'
    ensures Base(dir + "/" + name) == name
  {
    var p := dir + "/" + name;
    assert p[|p| - 1] == name[|name| - 1];
    assert SlashFreeEnd(p, |p|) == |p|;
    assert p[|dir|] == '/';
    assert forall k :: |dir| + 1 <= k < |p| ==> p[k] == name[k - |dir| - 1];
    assert ElementStart(p, |p|) == |dir| + 1;
    assert p[|dir| + 1..] == name;
  }

  /** Taking the base twice is the same as taking it once. */
  lemma BaseIdempotent(path: string)
    ensures Base(Base(path)) == Base(path)
  {
    var b := Base(path);
    if b == "/" {
      assert SlashFreeEnd(b, 1) == 0;
    } else {
      BaseOfName(b);
    }
  }
}

=== FILE: questions.dfy ===
/**
 The question list and the parser that builds it from the lines of the questions file.
 Every line is trimmed; a blank line or a `//` comment adds nothing, a `*` line adds one
 long-answer question, a `>` line adds one short question per listed file, and any other
 line adds one short question holding the whole trimmed line.
 */
module Questions {
  import opened GoStrings

  /** Which input widget a question is answered with. */
  datatype Kind = ShortAnswer | LongAnswer

  /** One question: its prompt, its answer (empty until submitted) and its widget kind. */
  datatype Question = Question(prompt: string, answer: string, kind: Kind)

  /** Why the parser as written stops the program: Go's runtime index check. */
  datatype Panic = IndexOutOfRange(index: nat, length: nat)

  datatype Result<T> = Ok(value: T) | Err(error: Panic)

  function ShortQuestion(prompt: string): Question {
    Question(prompt, "", ShortAnswer)
  }

  function LongQuestion(prompt: string): Question {
    Question(prompt, "", LongAnswer)
  }

  /** A trimmed line that starts with `//`. */
  predicate IsComment(t: string) {
    |t| >= 2 && t[0] == '/' && t[1] == '/'
  }

  /** The prompt a `>` line with text `stem` (the line without its `>`) gives for `file`. */
  function ScanPrompt(stem: string, file: string): string {
    stem + " " + Base(file) + "?"
  }

  /** The questions a `>` line expands to: one short question per file, in file order. */
  function ScanQuestions(stem: string, files: seq<string>): (r: seq<Question>)
    ensures |r| == |files|
    ensures forall i :: 0 <= i < |files| ==> r[i] == ShortQuestion(ScanPrompt(stem, files[i]))
  {
    if files == [] then []
    else [ShortQuestion(ScanPrompt(stem, files[0]))] + ScanQuestions(stem, files[1..])
  }

  /** The questions one trimmed line contributes. */
  function ParseTrimmed(t: string, files: seq<string>): seq<Question>
  {
    if |t| == 0 then []
    else if IsComment(t) then []
    else if t[0] == '*' then [LongQuestion(t[1..])]
    else if t[0] == '>' then ScanQuestions(t[1..], files)
    else [ShortQuestion(t)]
  }

  /** The questions one raw line contributes: those of the line with its surrounding
      whitespace trimmed. */
  function ParseLine(line: string, files: seq<string>): seq<Question>
  {
    ParseTrimmed(TrimSpace(line), files)
  }

  /** What each kind of trimmed line adds. A trimmed line that is exactly "/" is not a
      comment, so it becomes a short question holding "/". */
  lemma ParseLineCases(line: string, files: seq<string>)
    ensures var t := TrimSpace(line); var r := ParseLine(line, files);
      && (t == [] ==> r == [])
      && (IsComment(t) ==> r == [])
      && (t != [] && t[0] == '*' ==> r == [LongQuestion(t[1..])])
      && (t != [] && t[0] == '>' ==>
            |r| == |files| &&
            forall i :: 0 <= i < |files| ==> r[i] == ShortQuestion(t[1..] + " " + Base(files[i]) + "?"))
      && (t != [] && !IsComment(t) && t[0] != '*' && t[0] != '>' ==> r == [ShortQuestion(t)])
  {
  }

  /** One question for a single line, one per file for a `>` line, none otherwise. */
  lemma ParseLineCount(line: string, files: seq<string>)
    ensures |ParseLine(line, files)| ==
      (if IsSingleLine(line) then 1 else 0) + (if IsScanLine(line) then |files| else 0)
  {
    var t := TrimSpace(line);
    assert |ParseTrimmed(t, files)| ==
      (if IsSingle(t) then 1 else 0) + (if IsScan(t) then |files| else 0);
  }

  /** The lines of a file read one by one with `parse`, their questions concatenated in line order. */
  function ConcatMap(parse: string -> seq<Question>, lines: seq<string>): seq<Question>
  {
    if lines == [] then [] else parse(lines[0]) + ConcatMap(parse, lines[1..])
  }

  lemma {:induction false} ConcatMapAppend(parse: string -> seq<Question>, a: seq<string>, b: seq<string>)
    ensures ConcatMap(parse, a + b) == ConcatMap(parse, a) + ConcatMap(parse, b)
  {
    if a == [] {
      assert a + b == b;
    } else {
      assert (a + b)[1..] == a[1..] + b;
      ConcatMapAppend(parse, a[1..], b);
    }
  }

  function LineParser(files: seq<string>): string -> seq<Question> {
    line => ParseLine(line, files)
  }

  /** The question list of a whole file: each line's questions, in line order. */
  function ParseQuestions(lines: seq<string>, files: seq<string>): seq<Question>
  {
    ConcatMap(LineParser(files), lines)
  }

  /** The questions of a non-empty file are those of its first line followed by those of the rest. */
  lemma ParseCons(lines: seq<string>, files: seq<string>)
    requires lines != []
    ensures ParseQuestions(lines, files) == ParseLine(lines[0], files) + ParseQuestions(lines[1..], files)
  {
  }

  /** The parse loop of the program: append each line's questions to the list built so far. */
  method Parse(lines: seq<string>, files: seq<string>) returns (questions: seq<Question>)
    ensures questions == ParseQuestions(lines, files)
  {
    questions := [];
    var i := 0;
    while i < |lines|
      invariant 0 <= i <= |lines|
      invariant questions == ParseQuestions(lines[..i], files)
    {
      ParseAppend(lines[..i], [lines[i]], files);
      ParseOne(lines[i], files);
      assert lines[..i] + [lines[i]] == lines[..i + 1];
      questions := questions + ParseLine(lines[i], files);
      i := i + 1;
    }
    assert lines[..|lines|] == lines;
  }

  /** Parsing is compositional: the questions of `a + b` are those of `a` followed by those of `b`. */
  lemma ParseAppend(a: seq<string>, b: seq<string>, files: seq<string>)
    ensures ParseQuestions(a + b, files) == ParseQuestions(a, files) + ParseQuestions(b, files)
  {
    ConcatMapAppend(LineParser(files), a, b);
  }

  /** A trimmed line that adds exactly one question: a `*` line or a plain line. */
  predicate IsSingle(t: string) {
    t != [] && !IsComment(t) && t[0] != '>'
  }

  /** A trimmed `>` line, which adds one question per listed file. */
  predicate IsScan(t: string) {
    t != [] && t[0] == '>'
  }

  predicate IsSingleLine(line: string) {
    IsSingle(TrimSpace(line))
  }

  predicate IsScanLine(line: string) {
    IsScan(TrimSpace(line))
  }

  function CountSingleLines(lines: seq<string>): nat {
    if lines == [] then 0 else (if IsSingleLine(lines[0]) then 1 else 0) + CountSingleLines(lines[1..])
  }

  function CountScanLines(lines: seq<string>): nat {
    if lines == [] then 0 else (if IsScanLine(lines[0]) then 1 else 0) + CountScanLines(lines[1..])
  }

  /** The number of questions is the number of plain and `*` lines plus, for every `>` line,
      the number of listed files; blank and comment lines count for nothing. */
  lemma {:induction false} ParseCount(lines: seq<string>, files: seq<string>)
    ensures |ParseQuestions(lines, files)| == CountSingleLines(lines) + CountScanLines(lines) * |files|
  {
    ParseCountSum(lines, files);
    ScanSumIsProduct(lines, |files|);
  }

  /** Each `>` line weighs `n`, the others nothing. */
  function ScanSum(lines: seq<string>, n: nat): nat {
    if lines == [] then 0 else (if IsScanLine(lines[0]) then n else 0) + ScanSum(lines[1..], n)
  }

  lemma {:induction false} ScanSumIsProduct(lines: seq<string>, n: nat)
    ensures ScanSum(lines, n) == CountScanLines(lines) * n
  {
    if lines != [] {
      ScanSumIsProduct(lines[1..], n);
      var scan := if IsScanLine(lines[0]) then 1 else 0;
      MulDistributes(scan, CountScanLines(lines[1..]), n);
    }
  }

  lemma {:induction false} ParseCountSum(lines: seq<string>, files: seq<string>)
    ensures |ParseQuestions(lines, files)| == CountSingleLines(lines) + ScanSum(lines, |files|)
  {
    if lines != [] {
      var rest := lines[1..];
      ParseCons(lines, files);
      ParseLineCount(lines[0], files);
      ParseCountSum(rest, files);
    }
  }

  lemma MulDistributes(a: nat, b: nat, n: nat)
    ensures (a + b) * n == a * n + b * n
  {
  }

  /** Every question the parser produces starts with an empty answer. */
  lemma {:induction false} ParseAnswersEmpty(lines: seq<string>, files: seq<string>)
    ensures forall i :: 0 <= i < |ParseQuestions(lines, files)| ==> ParseQuestions(lines, files)[i].answer == ""
  {
    if lines != [] {
      ParseCons(lines, files);
      ParseAnswersEmpty(lines[1..], files);
      var t := TrimSpace(lines[0]);
      assert forall i :: 0 <= i < |ParseTrimmed(t, files)| ==> ParseTrimmed(t, files)[i].answer == "";
    }
  }

  /** A long-answer question comes from a `*` line and its prompt is the rest of that line. */
  lemma LongFromStarLine(line: string, files: seq<string>, q: Question)
    requires q in ParseLine(line, files) && q.kind == LongAnswer
    ensures TrimSpace(line) == ['*'] + q.prompt
  {
    var t := TrimSpace(line);
    LongFromStar(t, files, q);
  }

  lemma LongFromStar(t: string, files: seq<string>, q: Question)
    requires q in ParseTrimmed(t, files) && q.kind == LongAnswer
    ensures t == ['*'] + q.prompt
  {
    assert t == [t[0]] + t[1..];
  }

  /** Long-answer questions come only from `*` lines, each prompt being the rest of its line. */
  lemma {:induction false} ParseLongOnlyFromStar(lines: seq<string>, files: seq<string>, q: Question)
    requires q in ParseQuestions(lines, files) && q.kind == LongAnswer
    ensures exists j :: 0 <= j < |lines| && TrimSpace(lines[j]) == ['*'] + q.prompt
  {
    var head := ParseLine(lines[0], files);
    ParseCons(lines, files);
    if q in head {
      LongFromStarLine(lines[0], files, q);
      assert TrimSpace(lines[0]) == ['*'] + q.prompt;
    } else {
      ParseLongOnlyFromStar(lines[1..], files, q);
      var j :| 0 <= j < |lines[1..]| && TrimSpace(lines[1..][j]) == ['*'] + q.prompt;
      assert lines[j + 1] == lines[1..][j];
    }
  }

  lemma ParseOne(line: string, files: seq<string>)
    ensures ParseQuestions([line], files) == ParseLine(line, files)
  {
    ParseCons([line], files);
    assert ParseQuestions([], files) == [];
  }

  /** A line that is already trimmed and starts with `*` gives one long question. */
  lemma ParseStarLine(line: string, files: seq<string>)
    requires line != [] && line[0] == '*' && !IsSpace(line[|line| - 1])
    ensures ParseLine(line, files) == [LongQuestion(line[1..])]
  {
    TrimSpaceOfTrimmed(line);
  }

  /** A line that is already trimmed and starts with `>` gives one question per file. */
  lemma ParseScanLine(line: string, files: seq<string>)
    requires line != [] && line[0] == '>' && !IsSpace(line[|line| - 1])
    ensures ParseLine(line, files) == ScanQuestions(line[1..], files)
  {
    TrimSpaceOfTrimmed(line);
  }

  /** A `*` line keeps everything after the star, including the space that follows it. */
  lemma LongLineExample(line: string)
    requires line == "* Tell me about yourself"
    ensures ParseQuestions([line], []) == [LongQuestion(" Tell me about yourself")]
  {
    ParseOne(line, []);
    ParseStarLine(line, []);
    assert line[1..] == " Tell me about yourself";
  }

  /** A `>` line gives one question per file, in file order, from the files' base names. */
  lemma ScanLineExample(line: string, files: seq<string>)
    requires line == "> Describe" && files == ["docs/a.txt", "b.txt"]
    ensures ParseQuestions([line], files) ==
      [ShortQuestion(" Describe a.txt?"), ShortQuestion(" Describe b.txt?")]
  {
    assert ParseQuestions([line], files) == ScanQuestions(" Describe", files) by {
      ParseOne(line, files);
      ParseScanLine(line, files);
      assert line[1..] == " Describe";
    }
    ExampleBases(files);
  }

  lemma ExampleBases(files: seq<string>)
    requires files == ["docs/a.txt", "b.txt"]
    ensures ScanQuestions(" Describe", files) == [ShortQuestion(" Describe a.txt?"), ShortQuestion(" Describe b.txt?")]
  {
    assert Base(files[0]) == "a.txt" by {
      var dir, name := files[0][..4], files[0][5..];
      assert dir + "/" + name == files[0];
      BaseOfJoin(dir, name);
    }
    assert Base(files[1]) == "b.txt" by {
      BaseOfName(files[1]);
    }
    var r := ScanQuestions(" Describe", files);
    assert ScanPrompt(" Describe", files[0]) == " Describe a.txt?";
    assert ScanPrompt(" Describe", files[1]) == " Describe b.txt?";
    assert r == [r[0], r[1]];
  }

  // ---------------------------------------------------------------------------------------
  // The parser as written: the comment test reads the second character without checking the
  // length, so a trimmed line that is exactly "/" stops the program with an index panic.

  function ParseLineAsWritten(line: string, files: seq<string>): (r: Result<seq<Question>>)
    ensures r.Err? <==> TrimSpace(line) == "/"
    ensures r.Err? ==> r.error == IndexOutOfRange(1, 1)
    ensures r.Ok? ==> r.value == ParseLine(line, files)
  {
    var t := TrimSpace(line);
    if |t| == 0 then Ok([])
    else if t[0] == '/' && |t| < 2 then Err(IndexOutOfRange(1, |t|))
    else if t[0] == '/' && t[1] == '/' then Ok([])
    else if t[0] == '*' then Ok([LongQuestion(t[1..])])
    else if t[0] == '>' then Ok(ScanQuestions(t[1..], files))
    else Ok([ShortQuestion(t)])
  }

  /** The whole parse as written: the first panicking line stops it, and the only panic is
      the read of index 1 of a one-character line. */
  function ParseAsWritten(lines: seq<string>, files: seq<string>): (r: Result<seq<Question>>)
    ensures r.Err? ==> r.error == IndexOutOfRange(1, 1)
  {
    if lines == [] then Ok([])
    else match ParseLineAsWritten(lines[0], files)
      case Err(p) => Err(p)
      case Ok(qs) =>
        match ParseAsWritten(lines[1..], files)
        case Err(p) => Err(p)
        case Ok(rest) => Ok(qs + rest)
  }

  /** The parser as written agrees with the corrected one exactly when no line trims to "/",
      and panics otherwise. */
  lemma {:induction false} ParseAsWrittenAgrees(lines: seq<string>, files: seq<string>)
    ensures ParseAsWritten(lines, files).Ok? <==> forall j :: 0 <= j < |lines| ==> TrimSpace(lines[j]) != "/"
    ensures ParseAsWritten(lines, files).Ok? ==> ParseAsWritten(lines, files).value == ParseQuestions(lines, files)
  {
    if lines != [] {
      ParseAsWrittenAgrees(lines[1..], files);
      assert forall j :: 1 <= j < |lines| ==> lines[j] == lines[1..][j - 1];
    }
  }

  /** A questions file holding a lone "/" line panics as written; the corrected parser reads
      it as a short question. */
  lemma SlashLinePanics()
    ensures ParseAsWritten(["/"], []) == Err(IndexOutOfRange(1, 1))
    ensures ParseQuestions(["/"], []) == [ShortQuestion("/")]
  {
    TrimSpaceOfTrimmed("/");
  }
}

=== FILE: summary.dfy ===
/**
 The answers summary written once the questionnaire is complete: one line
 "<question>: <answer>" per question, each ended by a newline, in question order.
 */
module Summary {
  import opened Questions

  /** The line a question contributes to the summary, newline included. */
  function Entry(q: Question): string {
    q.prompt + ": " + q.answer + "\n"
  }

  /** The summary text: the entries of all questions, in order. It is empty exactly when
      there are no questions. */
  function SummaryText(questions: seq<Question>): (text: string)
    ensures text == [] <==> questions == []
  {
    if questions == [] then "" else Entry(questions[0]) + SummaryText(questions[1..])
  }

  /** Builds the summary the way the view does, appending one entry per question. */
  method BuildSummary(questions: seq<Question>) returns (output: string)
    ensures output == SummaryText(questions)
  {
    output := "";
    var i := 0;
    while i < |questions|
      invariant 0 <= i <= |questions|
      invariant output == SummaryText(questions[..i])
    {
      assert questions[..i + 1] == questions[..i] + [questions[i]];
      SummaryAppend(questions[..i], [questions[i]]);
      SummaryOne(questions[i]);
      output := output + Entry(questions[i]);
      i := i + 1;
    }
    assert questions[..|questions|] == questions;
  }

  /** The summary of a single question is its entry. */
  lemma SummaryOne(q: Question)
    ensures SummaryText([q]) == Entry(q)
  {
    assert [q][1..] == [];
  }

  /** The summary of two runs of questions is the summary of the first followed by that of
      the second. */
  lemma {:induction false} SummaryAppend(a: seq<Question>, b: seq<Question>)
    ensures SummaryText(a + b) == SummaryText(a) + SummaryText(b)
  {
    if a == [] {
      assert a + b == b;
    } else {
      assert (a + b)[0] == a[0];
      assert (a + b)[1..] == a[1..] + b;
      SummaryAppend(a[1..], b);
    }
  }

  predicate NoNewline(s: string) {
    forall i :: 0 <= i < |s| ==> s[i] != '\n'
  }

  /** The first index at or after `i` that holds a newline, or `|s|`. */
  function NewlineIndex(s: string, i: nat): (j: nat)
    requires i <= |s|
    ensures i <= j <= |s|
    ensures forall k :: i <= k < j ==> s[k] != '\n'
    ensures j < |s| ==> s[j] == '\n'
    decreases |s| - i
  {
    if i < |s| && s[i] != '\n' then NewlineIndex(s, i + 1) else i
  }

  /** The lines of a text: the pieces between newlines, where a final newline ends the last
      line rather than starting an empty one. */
  function Lines(s: string): (lines: seq<string>)
    ensures forall k :: 0 <= k < |lines| ==> NoNewline(lines[k])
    decreases |s|
  {
    if s == [] then []
    else
      var j := NewlineIndex(s, 0);
      if j == |s| then [s] else [s[..j]] + Lines(s[j + 1..])
  }

  /** A line without newlines, then a newline, then more text, splits off as the first line. */
  lemma LinesCons(line: string, rest: string)
    requires NoNewline(line)
    ensures Lines(line + "\n" + rest) == [line] + Lines(rest)
  {
    var s := line + "\n" + rest;
    assert s[|line|] == '\n';
    assert forall k :: 0 <= k < |line| ==> s[k] == line[k];
    assert NewlineIndex(s, 0) == |line|;
    assert s[..|line|] == line;
    assert s[|line| + 1..] == rest;
  }

  /** The entry of a question whose prompt and answer hold no newline is one newline-free
      line "<question>: <answer>" followed by a newline. */
  lemma EntryIsLine(q: Question)
    requires NoNewline(q.prompt) && NoNewline(q.answer)
    ensures Entry(q) == (q.prompt + ": " + q.answer) + "\n"
    ensures NoNewline(q.prompt + ": " + q.answer)
  {
    var line := q.prompt + ": " + q.answer;
    forall k | 0 <= k < |line|
      ensures line[k] != '\n'
    {
      if k < |q.prompt| {
        assert line[k] == q.prompt[k];
      } else if k >= |q.prompt| + 2 {
        assert line[k] == q.answer[k - |q.prompt| - 2];
      }
    }
  }

  /** When no prompt or answer holds a newline, the summary splits back into exactly one line
      per question, in order, each reading "<question>: <answer>". */
  lemma {:induction false} SummaryLines(questions: seq<Question>)
    requires forall i :: 0 <= i < |questions| ==>
               NoNewline(questions[i].prompt) && NoNewline(questions[i].answer)
    ensures |Lines(SummaryText(questions))| == |questions|
    ensures forall i :: 0 <= i < |questions| ==>
              Lines(SummaryText(questions))[i] == questions[i].prompt + ": " + questions[i].answer
  {
    if questions != [] {
      var q, rest := questions[0], questions[1..];
      SummaryLines(rest);
      EntryIsLine(q);
      var line := q.prompt + ": " + q.answer;
      LinesCons(line, SummaryText(rest));
      var ls := Lines(SummaryText(questions));
      assert ls == [line] + Lines(SummaryText(rest));
      forall i | 0 <= i < |questions|
        ensures ls[i] == questions[i].prompt + ": " + questions[i].answer
      {
        if i > 0 {
          assert ls[i] == Lines(SummaryText(rest))[i - 1];
          assert questions[i] == rest[i - 1];
        }
      }
    }
  }
}

=== FILE: table.dfy ===
/**
 The summary table built once the questionnaire is complete: two columns, "Question" and
 "Answer", sized from the terminal width, one row per question in order.
 */
module SummaryTable {
  import opened Questions

  /** The padding the layout subtracts from the width (and the height) of the terminal. */
  const Padding: int := 6

  /** Go's integer division, which truncates toward zero (Dafny's `/` rounds down on a
      negative dividend). */
  function GoDiv(a: int, b: int): (q: int)
    requires b > 0
    ensures a >= 0 ==> 0 <= a - q * b < b
    ensures a < 0 ==> -b < a - q * b <= 0
  {
    if a >= 0 then a / b else -((-a) / b)
  }

  /** A third of the width left after the padding, rounded toward zero. */
  function QuestionColumnWidth(width: int): (q: int)
    ensures width >= Padding ==> 0 <= q && 3 * q <= width - Padding < 3 * q + 3
    ensures width < Padding ==> q <= 0 && 3 * q - 3 < width - Padding <= 3 * q
  {
    GoDiv(width - Padding, 3)
  }

  /** About two thirds of the width left after the padding, less the padding again; once the
      width covers the padding, the two columns together leave twice the padding free. */
  function AnswerColumnWidth(width: int): (a: int)
    ensures width >= Padding ==>
              2 * (width - Padding) - 3 * Padding - 4 <= 3 * a <= 2 * (width - Padding) - 3 * Padding
    ensures width >= Padding ==> QuestionColumnWidth(width) + a <= width - 2 * Padding
  {
    GoDiv(width - Padding, 3) * 2 - Padding
  }

  datatype Column = Column(title: string, width: int)

  datatype Row = Row(question: string, answer: string)

  /** The table widget's state: `NoTable` before it is first built. */
  datatype Table = NoTable | Table(columns: seq<Column>, rows: seq<Row>, height: int, focused: bool)

  /** One row per question, in question order, showing its prompt and its answer. */
  function Rows(questions: seq<Question>): (rows: seq<Row>)
    ensures |rows| == |questions|
    ensures forall i :: 0 <= i < |questions| ==>
              rows[i].question == questions[i].prompt && rows[i].answer == questions[i].answer
  {
    if questions == [] then []
    else [Row(questions[0].prompt, questions[0].answer)] + Rows(questions[1..])
  }

  /** The table rebuilt for a terminal of `width` x `height`: a question column of a third of
      the usable width, an answer column of twice that less the padding, a focused table of
      the height less the padding, and a row per question. */
  function InitTable(width: int, height: int, questions: seq<Question>): (t: Table)
    ensures t.Table? && t.focused && t.height == height - Padding
    ensures |t.columns| == 2
    ensures t.columns[0] == Column("Question", QuestionColumnWidth(width))
    ensures t.columns[1] == Column("Answer", AnswerColumnWidth(width))
    ensures |t.rows| == |questions|
    ensures forall i :: 0 <= i < |questions| ==>
              t.rows[i] == Row(questions[i].prompt, questions[i].answer)
  {
    Table([Column("Question", QuestionColumnWidth(width)), Column("Answer", AnswerColumnWidth(width))],
          Rows(questions), height - Padding, true)
  }

  /** Once the width covers the padding, the question column takes a third of the usable
      width (rounded down), the answer column is twice as wide less the padding, and both
      columns together leave at least twice the padding free. */
  lemma ColumnWidthsFit(width: int)
    requires width >= Padding
    ensures var q, a := QuestionColumnWidth(width), AnswerColumnWidth(width);
      && 0 <= q
      && 3 * q <= width - Padding < 3 * q + 3
      && a == 2 * q - Padding
      && q + a <= width - 2 * Padding
  {
  }

  /** At the smallest terminal the questionnaire accepts (80 columns), the question column is
      24 wide and the answer column 42, and no terminal of 80 columns or more gives narrower ones. */
  lemma ColumnWidthsAtLeastMinimum(width: int)
    requires width >= 80
    ensures QuestionColumnWidth(width) >= 24 && AnswerColumnWidth(width) >= 42
  {
    ColumnWidthsFit(width);
  }

  /** Below 15 columns the answer column width is negative; below 6 the question column is
      too, rounded toward zero: a width of 1 gives -1, not the -2 that rounding down gives. */
  lemma NarrowColumns(width: int)
    requires width < 15
    ensures AnswerColumnWidth(width) < 0
    ensures width < Padding ==> QuestionColumnWidth(width) <= 0
    ensures width == 1 ==> QuestionColumnWidth(width) == -1 && (width - Padding) / 3 == -2
  {
  }
}

=== FILE: wizard.dfy ===
/**
 The questionnaire's state machine: the model record, the `Next` step and the `Update`
 function that reacts to terminal events (resizes and key presses), and what the view
 writes out once every question is answered.
 */
module Wizard {
  import opened Questions
  import opened SummaryTable
  import opened Summary

  /** The smallest terminal the questionnaire draws itself in. */
  const MinWidth: int := 80
  const MinHeight: int := 20

  /** The events the questionnaire distinguishes. `Type` is a key the current input field
      takes (a character, a deletion, a paste); the field's editing is opaque, so the event
      carries the text the field holds afterwards. `Other` is any other message, which leaves
      the field's text as it is. */
  datatype Event = Resize(width: int, height: int) | Type(text: string) | Enter | Esc | CtrlC | Other

  /** Which widget receives a message the questionnaire passes on. */
  datatype Target = TableWidget | InputWidget(index: nat)

  /** The command `Update` hands back to the runtime: none, quit, the `Blur` command of a
      question's input field, or whatever the widget the message was passed on to returns. */
  datatype Cmd = NoCmd | Quit | Blur(index: nat) | Forward(target: Target)

  /** The questionnaire's state. `fields` holds the text of each question's input field. */
  datatype Model = Model(index: int, width: int, height: int, done: bool,
                         questions: seq<Question>, fields: seq<string>, table: Table)

  datatype Step = Step(model: Model, cmd: Cmd)

  datatype Option<T> = None | Some(value: T)

  /** The current question exists, and every question has its input field. */
  predicate Valid(m: Model) {
    0 <= m.index < |m.questions| && |m.fields| == |m.questions|
  }

  predicate TooSmall(width: int, height: int) {
    width < MinWidth || height < MinHeight
  }

  /** Two question lists with the same questions, answers aside. */
  predicate SameQuestions(a: seq<Question>, b: seq<Question>) {
    |a| == |b| &&
    forall i :: 0 <= i < |a| ==> a[i].prompt == b[i].prompt && a[i].kind == b[i].kind
  }

  /** A fresh questionnaire: first question, empty input fields, no size known yet, not done,
      no table. */
  function New(questions: seq<Question>): (m: Model)
    ensures m.questions == questions && m.index == 0 && !m.done && m.table == NoTable
    ensures |m.fields| == |questions| && forall i :: 0 <= i < |questions| ==> m.fields[i] == ""
    ensures questions != [] <==> Valid(m)
  {
    Model(0, 0, 0, false, questions, seq(|questions|, i => ""), NoTable)
  }

  /** Moves to the next question, or, at the last one, marks the questionnaire done and
      builds the table of answers. */
  function Next(m: Model): (r: Model)
    requires Valid(m)
    ensures Valid(r)
    ensures r.questions == m.questions && r.fields == m.fields && r.width == m.width && r.height == m.height
    ensures m.index < |m.questions| - 1 ==> r.index == m.index + 1 && r.done == m.done && r.table == m.table
    ensures m.index == |m.questions| - 1 ==>
              r.index == m.index && r.done && r.table == InitTable(m.width, m.height, m.questions)
  {
    if m.index < |m.questions| - 1 then m.(index := m.index + 1)
    else m.(done := true, table := InitTable(m.width, m.height, m.questions))
  }

  /** Where a message that is not handled by the questionnaire itself goes. */
  function ForwardTarget(m: Model): (t: Target)
    requires Valid(m)
    ensures t == TableWidget <==> m.done
    ensures t.InputWidget? ==> t.index == m.index
  {
    if m.done then TableWidget else InputWidget(m.index)
  }

  /** The questionnaire's reaction to one event. */
  function Update(m: Model, e: Event): (r: Step)
    requires Valid(m)
    ensures Valid(r.model)
    ensures SameQuestions(m.questions, r.model.questions)
    ensures m.done ==> r.model.done
    ensures r.model.done && !m.done ==> e.Enter? && m.index == |m.questions| - 1
    ensures forall i :: 0 <= i < |m.questions| && r.model.questions[i].answer != m.questions[i].answer ==>
              e.Enter? && i == m.index
    ensures forall i :: 0 <= i < |m.fields| && r.model.fields[i] != m.fields[i] ==>
              e.Type? && !m.done && i == m.index
    ensures r.cmd == Quit <==> e.CtrlC?
  {
    match e
    case Resize(w, h) =>
      var sized := m.(width := w, height := h);
      if TooSmall(w, h) then Step(sized, NoCmd)
      else
        var m' := if sized.done then sized.(table := InitTable(w, h, sized.questions)) else sized;
        Step(m', Forward(ForwardTarget(m')))
    case Type(text) =>
      if m.done then Step(m, Forward(ForwardTarget(m)))
      else Step(m.(fields := m.fields[m.index := text]), Forward(ForwardTarget(m)))
    case Enter =>
      var answered := m.questions[m.index := m.questions[m.index].(answer := m.fields[m.index])];
      Step(Next(m.(questions := answered)), Blur(m.index))
    case Esc =>
      Step(if m.index >= 1 then m.(index := m.index - 1) else m, NoCmd)
    case CtrlC =>
      Step(m, Quit)
    case Other =>
      Step(m, Forward(ForwardTarget(m)))
  }

  /** The state after a sequence of events. */
  function Run(m: Model, events: seq<Event>): (r: Model)
    requires Valid(m)
    ensures Valid(r)
    ensures SameQuestions(m.questions, r.questions)
    ensures m.done ==> r.done
    decreases |events|
  {
    if events == [] then m else Run(Update(m, events[0]).model, events[1..])
  }

  /** The text the view saves to the output file: only once the questionnaire is done and the
      terminal is large enough to draw it. */
  function SavedOutput(m: Model): (out: Option<string>)
    ensures out.Some? <==> m.done && !TooSmall(m.width, m.height)
  {
    if TooSmall(m.width, m.height) || !m.done then None else Some(SummaryText(m.questions))
  }

  // ---------------------------------------------------------------------------------------
  // One event at a time.

  /** A key typed before the questionnaire is done edits the current field only; once done,
      keys go to the table and change nothing. */
  lemma TypeStep(m: Model, text: string)
    requires Valid(m)
    ensures var r := Update(m, Type(text));
      && r.model.questions == m.questions && r.model.index == m.index && r.model.done == m.done
      && r.model.table == m.table && r.model.width == m.width && r.model.height == m.height
      && (m.done ==> r == Step(m, Forward(TableWidget)))
      && (!m.done ==> r.model.fields == m.fields[m.index := text] && r.cmd == Forward(InputWidget(m.index)))
  {
  }

  /** Enter records the current field's text as the current answer, leaves every other
      question alone, returns the answered question's `Blur` command, and moves on (or
      finishes at the last question) whatever the terminal size. */
  lemma EnterStep(m: Model)
    requires Valid(m)
    ensures var r := Update(m, Enter);
      && r.cmd == Blur(m.index)
      && r.model.questions[m.index] == m.questions[m.index].(answer := m.fields[m.index])
      && (forall i :: 0 <= i < |m.questions| && i != m.index ==> r.model.questions[i] == m.questions[i])
      && r.model.fields == m.fields && r.model.width == m.width && r.model.height == m.height
      && (m.index < |m.questions| - 1 ==>
            r.model.index == m.index + 1 && r.model.done == m.done && r.model.table == m.table)
      && (m.index == |m.questions| - 1 ==>
            r.model.index == m.index && r.model.done
            && r.model.table == InitTable(m.width, m.height, r.model.questions))
  {
  }

  /** Esc steps back one question when there is one, and changes nothing else: neither the
      answers nor whether the questionnaire is done. */
  lemma EscStep(m: Model)
    requires Valid(m)
    ensures var r := Update(m, Esc);
      && r.cmd == NoCmd
      && r.model.questions == m.questions && r.model.done == m.done && r.model.table == m.table
      && r.model.fields == m.fields && r.model.width == m.width && r.model.height == m.height
      && (m.index >= 1 ==> r.model.index == m.index - 1)
      && (m.index == 0 ==> r.model == m)
  {
  }

  /** A resize records the new size. Below 80x20 that is all it does; otherwise a finished
      questionnaire also rebuilds its table for the new size, and the message is passed on. */
  lemma ResizeStep(m: Model, width: int, height: int)
    requires Valid(m)
    ensures var r := Update(m, Resize(width, height));
      && r.model.width == width && r.model.height == height
      && r.model.index == m.index && r.model.done == m.done
      && r.model.questions == m.questions && r.model.fields == m.fields
      && (TooSmall(width, height) ==> r.model.table == m.table && r.cmd == NoCmd)
      && (!TooSmall(width, height) ==> r.cmd == Forward(ForwardTarget(m)))
      && (!TooSmall(width, height) && m.done ==> r.model.table == InitTable(width, height, m.questions))
      && (!m.done ==> r.model.table == m.table)
  {
  }

  /** Ctrl+C quits and any other message is passed on; neither changes the state. */
  lemma PassiveSteps(m: Model)
    requires Valid(m)
    ensures Update(m, CtrlC) == Step(m, Quit)
    ensures Update(m, Other) == Step(m, Forward(ForwardTarget(m)))
  {
  }

  // ---------------------------------------------------------------------------------------
  // What every reachable state satisfies.

  /** Every question before the current one (every question, once done) holds its field's
      text as its answer, and once done the table lists exactly the questions with their
      answers. */
  predicate Coherent(m: Model) {
    && Valid(m)
    && (forall j :: 0 <= j < |m.questions| && (j < m.index || m.done) ==> m.questions[j].answer == m.fields[j])
    && (m.done ==> m.table.Table? && m.table.rows == Rows(m.questions))
  }

  lemma NewCoherent(questions: seq<Question>)
    requires questions != []
    ensures Coherent(New(questions))
  {
  }

  /** Every event keeps the state coherent, and once the questionnaire is done no event
      changes any answer: Enter can only store again the text the answer already holds,
      because the fields no longer take keys. */
  lemma UpdateKeepsCoherent(m: Model, e: Event)
    requires Coherent(m)
    ensures Coherent(Update(m, e).model)
    ensures m.done ==> Update(m, e).model.questions == m.questions
  {
    var r := Update(m, e).model;
    match e
    case Enter =>
      EnterStep(m);
      if m.done {
        assert r.questions[m.index] == m.questions[m.index];
        assert r.questions == m.questions;
      }
      if m.index == |m.questions| - 1 {
        assert r.table.rows == Rows(r.questions);
      }
    case Resize(w, h) =>
      ResizeStep(m, w, h);
      if m.done && !TooSmall(w, h) {
        assert r.table.rows == Rows(r.questions);
      }
    case Type(text) =>
      TypeStep(m, text);
    case Esc =>
      EscStep(m);
    case CtrlC =>
    case Other =>
  }

  /** Over any sequence of events the state stays coherent, and the answers of a finished
      questionnaire stay as they are. */
  lemma {:induction false} RunKeepsCoherent(m: Model, events: seq<Event>)
    requires Coherent(m)
    ensures Coherent(Run(m, events))
    ensures m.done ==> Run(m, events).questions == m.questions
    decreases |events|
  {
    if events != [] {
      UpdateKeepsCoherent(m, events[0]);
      RunKeepsCoherent(Update(m, events[0]).model, events[1..]);
    }
  }

  /** In every state a fresh questionnaire reaches, once done, the answers are frozen: no later
      events change them, and the table lists the same questions and answers as the saved
      text. */
  lemma ReachableAnswersFrozen(questions: seq<Question>, before: seq<Event>, after: seq<Event>)
    requires questions != []
    ensures var m := Run(New(questions), before); var r := Run(m, after);
      && Coherent(m) && Coherent(r)
      && (m.done ==> r.questions == m.questions)
      && (r.done ==>
            && r.table.Table? && |r.table.rows| == |r.questions|
            && (forall i :: 0 <= i < |r.questions| ==> r.table.rows[i] == Row(r.questions[i].prompt, r.questions[i].answer)))
      && (r.done && !TooSmall(r.width, r.height) ==> SavedOutput(r) == Some(SummaryText(r.questions)))
  {
    NewCoherent(questions);
    var m := Run(New(questions), before);
    RunKeepsCoherent(New(questions), before);
    RunKeepsCoherent(m, after);
  }

  // ---------------------------------------------------------------------------------------
  // Sequences of events.

  /** Running two sequences of events one after the other is running their concatenation. */
  lemma {:induction false} RunAppend(m: Model, a: seq<Event>, b: seq<Event>)
    requires Valid(m)
    ensures Run(m, a + b) == Run(Run(m, a), b)
    decreases |a|
  {
    if a == [] {
      assert a + b == b;
    } else {
      assert (a + b)[0] == a[0];
      assert (a + b)[1..] == a[1..] + b;
      RunAppend(Update(m, a[0]).model, a[1..], b);
    }
  }

  /** Typing each value into the current field and pressing Enter, value after value. */
  function TypeAndEnter(values: seq<string>): (events: seq<Event>)
    ensures |events| == 2 * |values|
  {
    if values == [] then [] else [Type(values[0]), Enter] + TypeAndEnter(values[1..])
  }

  /** A non-empty sequence of events runs its first event, then the rest. */
  lemma RunCons(m: Model, events: seq<Event>)
    requires Valid(m) && events != []
    ensures Run(m, events) == Run(Update(m, events[0]).model, events[1..])
  {
  }

  /** Typing a value into the current field of a questionnaire not yet done and pressing
      Enter answers the current question with that value and moves on, or finishes at the
      last question. */
  lemma TypeThenEnter(m: Model, v: string, rest: seq<Event>)
    requires Valid(m) && !m.done
    ensures var m2 := Update(Update(m, Type(v)).model, Enter).model;
      && Run(m, [Type(v), Enter] + rest) == Run(m2, rest)
      && m2.questions == m.questions[m.index := m.questions[m.index].(answer := v)]
      && m2.width == m.width && m2.height == m.height
      && (m.index < |m.questions| - 1 ==> m2.index == m.index + 1 && !m2.done)
      && (m.index == |m.questions| - 1 ==>
            m2.index == m.index && m2.done && m2.table == InitTable(m.width, m.height, m2.questions))
  {
    var m1 := Update(m, Type(v)).model;
    TypeStep(m, v);
    EnterStep(m1);
    RunTwo(m, Type(v), Enter, rest);
  }

  /** Two events, then the rest. */
  lemma RunTwo(m: Model, e1: Event, e2: Event, rest: seq<Event>)
    requires Valid(m)
    ensures Run(m, [e1, e2] + rest) == Run(Update(Update(m, e1).model, e2).model, rest)
  {
    var events := [e1, e2] + rest;
    RunCons(m, events);
    assert events[1..] == [e2] + rest;
    RunCons(Update(m, e1).model, events[1..]);
    assert events[1..][1..] == rest;
  }

  /** The question list once the questions from `index` on hold the given answers. */
  predicate AnsweredFrom(before: seq<Question>, index: nat, values: seq<string>, after: seq<Question>) {
    && |after| == |before|
    && index + |values| == |before|
    && (forall i :: 0 <= i < index ==> after[i] == before[i])
    && (forall i :: index <= i < |before| ==> after[i] == before[i].(answer := values[i - index]))
  }

  /** Answering question `index` with the first value, then the questions after it with the
      remaining values, answers every question from `index` on. */
  lemma AnsweredFromStep(before: seq<Question>, mid: seq<Question>, after: seq<Question>,
                         index: nat, values: seq<string>)
    requires values != [] && index + |values| == |before| == |mid|
    requires mid[index] == before[index].(answer := values[0])
    requires forall i :: 0 <= i < |before| && i != index ==> mid[i] == before[i]
    requires AnsweredFrom(mid, index + 1, values[1..], after)
    ensures AnsweredFrom(before, index, values, after)
  {
    forall i | index < i < |before|
      ensures after[i] == before[i].(answer := values[i - index])
    {
      assert values[1..][i - (index + 1)] == values[i - index];
    }
  }

  /** From question `index` of a questionnaire not yet done, typing a value and pressing
      Enter once per remaining question finishes it: every remaining question holds its value,
      the earlier questions are untouched, and the table is built from the answered list. */
  lemma {:induction false} AnswerRest(m: Model, values: seq<string>)
    requires Valid(m) && !m.done
    requires |values| == |m.questions| - m.index
    ensures var r := Run(m, TypeAndEnter(values));
      && r.done && r.index == |m.questions| - 1
      && AnsweredFrom(m.questions, m.index, values, r.questions)
      && r.width == m.width && r.height == m.height
      && r.table == InitTable(m.width, m.height, r.questions)
    decreases |values|
  {
    TypeThenEnter(m, values[0], TypeAndEnter(values[1..]));
    var m2 := Update(Update(m, Type(values[0])).model, Enter).model;
    if m.index < |m.questions| - 1 {
      AnswerRest(m2, values[1..]);
      var r := Run(m2, TypeAndEnter(values[1..]));
      AnsweredFromStep(m.questions, m2.questions, r.questions, m.index, values);
    }
  }

  /** A fresh questionnaire, resized to at least 80x20 and answered with one value per
      question, is done on its last question: each question holds its value, the saved text
      is the summary of the answered questions, and the table lists every question with its
      answer. When no prompt or value holds a newline, the saved text splits into one line
      "<question>: <answer>" per question, in order. */
  lemma {:induction false} AnswerAll(questions: seq<Question>, width: int, height: int, values: seq<string>)
    requires questions != [] && |values| == |questions|
    requires !TooSmall(width, height)
    ensures var r := Run(New(questions), [Resize(width, height)] + TypeAndEnter(values));
      && r.done && r.index == |questions| - 1
      && |r.questions| == |questions|
      && (forall i :: 0 <= i < |questions| ==> r.questions[i] == questions[i].(answer := values[i]))
      && SavedOutput(r) == Some(SummaryText(r.questions))
      && r.table == InitTable(width, height, r.questions)
      && r.table.Table? && |r.table.rows| == |questions|
      && (forall i :: 0 <= i < |questions| ==> r.table.rows[i] == Row(questions[i].prompt, values[i]))
      && ((forall i :: 0 <= i < |questions| ==> NoNewline(questions[i].prompt) && NoNewline(values[i])) ==>
            && |Lines(SavedOutput(r).value)| == |questions|
            && (forall i :: 0 <= i < |questions| ==>
                  Lines(SavedOutput(r).value)[i] == questions[i].prompt + ": " + values[i]))
  {
    var m0 := New(questions);
    var events := [Resize(width, height)] + TypeAndEnter(values);
    assert events[0] == Resize(width, height) && events[1..] == TypeAndEnter(values);
    RunCons(m0, events);
    var m1 := Update(m0, Resize(width, height)).model;
    ResizeStep(m0, width, height);
    AnswerRest(m1, values);
    var r := Run(m1, TypeAndEnter(values));
    if forall i :: 0 <= i < |questions| ==> NoNewline(questions[i].prompt) && NoNewline(values[i]) {
      SummaryLines(r.questions);
    }
  }

  /** Once done, shrinking the terminal below 80x20 and growing it again leaves the answers
      alone and rebuilds the table for the final size. */
  lemma {:induction false} ShrinkThenGrow(m: Model, smallWidth: int, smallHeight: int, width: int, height: int)
    requires Valid(m) && m.done
    requires TooSmall(smallWidth, smallHeight) && !TooSmall(width, height)
    ensures var r := Run(m, [Resize(smallWidth, smallHeight), Resize(width, height)]);
      && r.done && r.questions == m.questions && r.index == m.index
      && r.table == InitTable(width, height, m.questions)
      && SavedOutput(r) == Some(SummaryText(m.questions))
  {
    var events := [Resize(smallWidth, smallHeight), Resize(width, height)];
    var m1 := Update(m, events[0]).model;
    var m2 := Update(m1, events[1]).model;
    assert events[1..] == [Resize(width, height)] && events[1..][1..] == [];
    assert Run(m1, events[1..]) == Run(m2, []);
    assert Run(m, events) == m2;
  }

  /** Esc is honoured even after the last answer: a two-question session answered in an
      80x20 terminal and then sent Esc stays done, but its index is back on the first
      question, so being done does not pin the index to the last question. */
  lemma {:induction false} EscAfterDone(a: Question, b: Question, x: string, y: string)
    ensures var r := Run(New([a, b]), [Resize(MinWidth, MinHeight)] + TypeAndEnter([x, y]) + [Esc]);
      && r.done && r.index == 0
      && r.questions == [a.(answer := x), b.(answer := y)]
      && r.table == InitTable(MinWidth, MinHeight, r.questions)
      && SavedOutput(r) == Some(SummaryText(r.questions))
  {
    var m0 := New([a, b]);
    var first := [Resize(MinWidth, MinHeight)] + TypeAndEnter([x, y]);
    RunAppend(m0, first, [Esc]);
    AnswerAll([a, b], MinWidth, MinHeight, [x, y]);
    var m := Run(m0, first);
    assert m.questions == [a.(answer := x), b.(answer := y)];
    RunCons(m, [Esc]);
    assert [Esc][1..] == [];
    EscStep(m);
  }

  /** After the last answer, going back with Esc and typing does not change an answer: the keys
      go to the table, so Enter stores the text the field already held, and the table and the
      saved text keep showing the original answers. */
  lemma {:induction false} RetypeAfterDone(a: Question, b: Question, x: string, y: string, z: string)
    ensures var r := Run(New([a, b]), [Resize(MinWidth, MinHeight)] + TypeAndEnter([x, y]) + [Esc] + TypeAndEnter([z]));
      && r.done && r.index == 1
      && r.questions == [a.(answer := x), b.(answer := y)]
      && r.table.Table? && r.table.rows == [Row(a.prompt, x), Row(b.prompt, y)]
      && SavedOutput(r) == Some(SummaryText([a.(answer := x), b.(answer := y)]))
  {
    var m0 := New([a, b]);
    var first := [Resize(MinWidth, MinHeight)] + TypeAndEnter([x, y]) + [Esc];
    var last := TypeAndEnter([z]);
    RunAppend(m0, first, last);
    EscAfterDone(a, b, x, y);
    var m := Run(m0, first);
    ReachableAnswersFrozen([a, b], first, last);
    var r := Run(m, last);
    assert last == [Type(z), Enter];
    RunCons(m, last);
    var m1 := Update(m, Type(z)).model;
    TypeStep(m, z);
    RunCons(m1, last[1..]);
    assert last[1..][1..] == [];
    EnterStep(m1);
    assert r.table.rows == [Row(a.prompt, x), Row(b.prompt, y)];
  }

  /** A questions file whose lines add no question (all blank or comments, or only `>` lines
      with no file listed) gives an empty list, and a questionnaire over it has no current
      question for `Update` to index. */
  lemma NoQuestionsNoCurrent(lines: seq<string>, files: seq<string>)
    requires CountSingleLines(lines) == 0
    requires CountScanLines(lines) == 0 || files == []
    ensures ParseQuestions(lines, files) == []
    ensures !Valid(New(ParseQuestions(lines, files)))
  {
    ParseCount(lines, files);
  }
}
